=== FILE: README.md ===
# e-Archive demo: XSLT serialiser and document registry in Dafny

This project models the two pages of the municipal e-archive demo that hold logic.

**The transform page** (`app/transform/page.tsx`)
- It applies one embedded XSLT 1.0 stylesheet to an XML record. The record is a `BudgetReport`, a council `Meeting` or a school `Inspection`.
- The stylesheet writes a JSON-looking text object.
- The page keeps three pieces of state:
  - the input text;
  - the output text;
  - a fixed list of the XPath source paths the stylesheet reads.
- When the browser's XSLT engine throws, the output becomes a failure message and the path list is cleared.

**The document registry** (`app/crud/page.tsx`)
- It is a table of archive entries with edit, save, delete, search and reset handlers.
- Its Type and Status option lists are deduplicated.

## Modules

- **`Seqs`**: the sequence operations the source relies on.
  - `filter` and `map`;
  - the first-occurrence de-duplication of `[...new Set(xs)]`;
  - order (subsequence) and counting facts about them.
- **`Strings`**: text helpers.
  - The `xsl:for-each` layout, with its `position() != last()` separator, and a plain join as its reference.
  - ASCII `toLowerCase` and `includes`.
- **`Xml`**: the XPath 1.0 data model the stylesheet reads.
  - Elements, attributes and text nodes.
  - String-value (XPath 1.0 section 5.2).
  - Child steps with name tests, in document order.
  - Node-set to string conversion (XPath 1.0 section 4.2).
- **`Stylesheet`**: the template as the function `Transform`.
  - The dispatch of `xsl:choose` (XSLT 1.0 section 9.2).
  - Every branch's literal pieces, scalar fields and lists.
  - Layout lemmas giving each branch's output in terms of the document element's children.
- **`StylesheetExamples`**: a concrete Meeting record with its rendered output.
- **`TransformPage`**: the class `Page`, holding the transform page's state and its two handlers.
  - The browser's `DOMParser`/`XSLTProcessor` pair is a function parameter, `engine`. It either yields the parsed document or throws.
- **`Registry`**: the row and form types, the pure handler computations, and the class `CrudPage` holding the registry page's state.

## Model

| member | source | states |
|---|---|---|
| Seqs.Filter | app/crud/page.tsx:46 | the result keeps exactly the elements that satisfy the condition, and is never longer than the input |
| Seqs.FilterIsSubseq | app/crud/page.tsx:91-96 | filtering keeps the kept elements in their original order |
| Seqs.FilterCount | app/crud/page.tsx:46 | every occurrence of a kept element is kept, and no occurrence of a dropped one |
| Seqs.FilterIdempotent | app/crud/page.tsx:46 | filtering twice by the same condition is filtering once |
| Seqs.FilterAll | app/crud/page.tsx:91-96 | a condition every element passes keeps the whole list |
| Seqs.FilterNone | app/crud/page.tsx:91-96 | a condition no element passes gives the empty list |
| Seqs.FilterSingle | app/transform/page.tsx:42 | a condition exactly one element passes gives that one element |
| Seqs.FilterSameCondition | app/crud/page.tsx:91-96 | two conditions that agree on every element give the same result |
| Seqs.FilterAppend | app/transform/page.tsx:41 | filtering distributes over concatenation (node-sets keep document order) |
| Seqs.MapSeq | app/crud/page.tsx:39 | `map` keeps the length and puts f(s[i]) at position i |
| Seqs.IndexOf | app/crud/page.tsx:72 | the position of the first occurrence of a value |
| Seqs.Dedup | app/crud/page.tsx:72 | `[...new Set(s)]` holds exactly the values of s, each once |
| Seqs.DedupFirstOccurrenceOrder | app/crud/page.tsx:72 | the deduplicated values come in the order of their first occurrences |
| Strings.ForEachFrom | app/transform/page.tsx:41-46 | iteration i of an `xsl:for-each` (position() = i + 1) writes its item, then the separator unless position() = last(), then the later iterations |
| Strings.ForEach | app/transform/page.tsx:41-46 | the whole for-each text is the plain join of the items with the separator between neighbours |
| Strings.ForEachIsJoin | app/transform/page.tsx:43-45 | the `position() != last()` test puts exactly one separator between neighbouring items, by induction over the iterations |
| Strings.ForEachEmpty | app/transform/page.tsx:40-47 | an empty node-set writes nothing, so the list renders as `[]` |
| Strings.ForEachLength | app/transform/page.tsx:43-45 | a list of n >= 1 items holds exactly n - 1 separators |
| Strings.JoinLength | app/transform/page.tsx:43-45 | the reference join of n >= 1 items has length (item lengths) + (n - 1) separators |
| Strings.JoinSnoc | app/transform/page.tsx:54-59 | one more matching node adds one separator and its item at the end |
| Strings.LowerChar | app/crud/page.tsx:89 | 'A'..'Z' become the letter 32 code points later ('a'..'z'); every other character is kept; the result is never upper-case |
| Strings.ToLower | app/crud/page.tsx:95 | same length; no upper-case ASCII letter in the result; each upper-case letter becomes its lower-case letter in place; every other character is kept |
| Strings.LowerIdempotent | app/crud/page.tsx:89 | lower-casing twice is lower-casing once |
| Strings.LowerCaseExample | app/crud/page.tsx:89 | `SMITH` and `smith` both lower-case to `smith` |
| Strings.Includes | app/crud/page.tsx:95 | `s.includes(t)` holds exactly when t occurs in s at some offset |
| Xml.Children | app/transform/page.tsx:42 | a child step yields exactly the element children with that name (a text node has none), as a subsequence of the children, so in document order |
| Xml.ChildrenCount | app/transform/page.tsx:42 | a child step selects each matching child exactly as often as it occurs among the children, and no other node |
| Xml.StringValue | app/transform/page.tsx:55 | the string-value of `.`: a text node's text, or an element's descendant text in document order |
| Xml.StringValuesAppend | app/transform/page.tsx:84 | the string-value of concatenated nodes is the concatenation of their string-values |
| Xml.Step | app/transform/page.tsx:54 | a step over a node-set yields exactly the matching children of its context nodes: every result is such a child, and every such child is in the result |
| Xml.StepCount | app/transform/page.tsx:54 | a step selects each matching child of the node-set exactly as often as it occurs among the children of the context nodes, and no other node: N matching elements give N iterations |
| Xml.Descend | app/transform/page.tsx:62 | every node a location path selects is an element named by the path's last step |
| Xml.Select | app/transform/page.tsx:41 | a path from the root node selects only elements named by its last step |
| Xml.ValueOf | app/transform/page.tsx:39 | `xsl:value-of` of a node-set: the string-value of its first node, or "" when it is empty |
| Xml.ValueOfFirst | app/transform/page.tsx:51-52 | nodes after the first never change what `xsl:value-of` writes |
| Xml.AttributeValue | app/transform/page.tsx:42 | `@name` gives the value of the element's first attribute with that name, and "" for a text node or when there is no such attribute |
| Xml.FirstAttribute | app/transform/page.tsx:42 | the value of the first attribute with that name, or "" when none has it |
| Xml.SelectRoot | app/transform/page.tsx:37 | a root test selects a node exactly when the document element has that name |
| Xml.StepAppend | app/transform/page.tsx:54 | the step over two concatenated node-sets is the concatenation of the steps |
| Xml.DescendAppend | app/transform/page.tsx:62 | a location path keeps document order across concatenated node-sets |
| Xml.DescendEmpty | app/transform/page.tsx:62 | a location path from no node selects nothing |
| Xml.SelectAfterAppend | app/transform/page.tsx:39 | after a child is appended, a path selects what it selected before, followed by what it selects below the new child |
| Xml.SelectChildren | app/transform/page.tsx:39 | `Root/Field` selects the document element's `Field` children |
| Xml.SelectGrandchildren | app/transform/page.tsx:54 | `Root/List/Item` selects the `Item` children of the `List` children, in document order |
| Stylesheet.ShapeOf | app/transform/page.tsx:36-37 | the `xsl:choose` branch equals an independent function of the exact, case-sensitive name of the document element, and depends on nothing else |
| Stylesheet.TypeLabel | app/transform/page.tsx:38 | the `"type"` value of each supported branch (lines 38, 50, 71) |
| Stylesheet.Transform | app/transform/page.tsx:34-96 | every output starts with `{` and ends with newline + `}`; it is the unsupported-structure object exactly when the document element is none of the three; otherwise it starts with the branch's type field |
| Stylesheet.Body | app/transform/page.tsx:36-94 | the `xsl:otherwise` text for an unsupported element, otherwise text starting with the branch's type field |
| Stylesheet.TypeLineNotError | app/transform/page.tsx:38 | a type line and the error line differ at the sixth output character |
| Stylesheet.BudgetFields | app/transform/page.tsx:39-47 | the BudgetReport branch after its type line: year, then the departments list separated by `,`; BudgetLayout states it over the document element's children |
| Stylesheet.DepartmentItem | app/transform/page.tsx:42 | one department is one `{...}` object |
| Stylesheet.MeetingFields | app/transform/page.tsx:51-68 | the Meeting branch after its type line: date, location, attendees and agenda lists separated by `, `; MeetingLayout states it over the document element's children |
| Stylesheet.Quoted | app/transform/page.tsx:55 | a member or recommendation is its text between two quotes, spliced in unescaped |
| Stylesheet.AgendaItem | app/transform/page.tsx:63 | one agenda item is one `{...}` object |
| Stylesheet.InspectionFields | app/transform/page.tsx:72-89 | the Inspection branch after its type line: school, date, findings and recommendations lists separated by `, `; InspectionLayout states it over the document element's children |
| Stylesheet.FindingItem | app/transform/page.tsx:76 | one finding is one `{...}` object |
| Stylesheet.BudgetLayout | app/transform/page.tsx:37-48 | a BudgetReport renders its type, its first Year's text, and one department object per Department child joined by `,` |
| Stylesheet.MeetingLayout | app/transform/page.tsx:49-69 | a Meeting renders its first Date and Location, one quoted Member per attendee and one object per agenda Item, in document order joined by `, ` |
| Stylesheet.InspectionLayout | app/transform/page.tsx:70-90 | an Inspection renders its first SchoolName and Date, one object per Finding and one quoted Recommendation each, in document order joined by `, ` |
| Stylesheet.SelectUnaffected | app/transform/page.tsx:39 | appending a child the path does not step into leaves the selection unchanged |
| Stylesheet.ValueUnaffected | app/transform/page.tsx:51 | appending a second element of a scalar field leaves the field's value unchanged |
| Stylesheet.LaterDuplicateIgnored | app/transform/page.tsx:39 | a later duplicate of an existing non-list child of the document element leaves the whole output unchanged |
| StylesheetExamples.LeafValue | app/transform/page.tsx:55 | the string-value of an element with one text child is that text |
| StylesheetExamples.ExampleField | app/transform/page.tsx:51-52 | the example Meeting's Date and Location render as given |
| StylesheetExamples.MeetingExampleAttendees | app/transform/page.tsx:53-60 | members A and B render as `"A", "B"` |
| StylesheetExamples.MeetingExampleAgenda | app/transform/page.tsx:61-68 | one agenda item renders as one title/decision object |
| StylesheetExamples.MeetingExample | app/transform/page.tsx:49-69 | the whole output of the example Meeting, with the values spliced in unescaped in template order |
| TransformPage.Page.constructor | app/transform/page.tsx:13-15 | every text starts empty |
| TransformPage.Page.LoadPreset | app/transform/page.tsx:17-23 | the input becomes the loaded text and the output is cleared |
| TransformPage.Page.HandleTransform | app/transform/page.tsx:25-125 | the input is unchanged. A run that does not throw outputs `Transform` of the parsed document and the fixed path list. A throw outputs the failure message and an empty path list. The output is never empty |
| TransformPage.PathListLines | app/transform/page.tsx:105-120 | the path list has fourteen lines between an opening and a closing line break |
| Registry.Overlay | app/crud/page.tsx:39 | the spread `{ ...d, ...form }`: each field the form has replaces the row's, the others are kept; OverlayEmpty and OverlayWhole state its two ends |
| Registry.WithField | app/crud/page.tsx:138 | `{ ...form, field: value }` for each of the five inputs (lines 138, 150, 162, 174, 186) |
| Registry.Guarded | app/crud/page.tsx:37 | `!form.id`: the form has no id or id 0 |
| Registry.Matches | app/crud/page.tsx:92-95 | a row passes when the type filter is empty or equal, the status filter is empty or equal, and the lower-cased archivist includes the lower-cased query |
| Registry.SaveRows | app/crud/page.tsx:38-40 | same length and order; rows with the form's id are overlaid with the form; all other rows are unchanged |
| Registry.Ids | app/crud/page.tsx:39 | the ids of the rows, position by position |
| Registry.DeleteRows | app/crud/page.tsx:46 | exactly the rows whose id differs from the deleted one remain |
| Registry.SearchRows | app/crud/page.tsx:90-97 | a row is kept exactly when the type filter is empty or equal, the status filter is empty or equal, and the lower-cased archivist contains the lower-cased query |
| Registry.TypeOptions | app/crud/page.tsx:72 | each document type present in the rows, exactly once |
| Registry.StatusOptions | app/crud/page.tsx:82 | each status present in the rows, exactly once |
| Registry.OptionsInFirstOccurrenceOrder | app/crud/page.tsx:72-82 | both option lists are in first-occurrence order |
| Registry.OverlayEmpty | app/crud/page.tsx:39 | spreading `{}` over a row leaves it unchanged |
| Registry.OverlayWhole | app/crud/page.tsx:39 | spreading a whole row over another gives that row |
| Registry.WithFieldsKeepsId | app/crud/page.tsx:135-190 | field inputs never change the form's id |
| Registry.WithFieldsIsFormOf | app/crud/page.tsx:135-190 | editing the form of a row is the same as taking the form of the edited row |
| Registry.ApplyEditsKeepsId | app/crud/page.tsx:135-190 | field edits never change a row's id |
| Registry.EditedFormGuard | app/crud/page.tsx:37 | the form of an edited row is refused by the guard exactly when the row's id is 0 |
| Registry.SaveKeepsIds | app/crud/page.tsx:38-40 | a save never changes the ids or the order of the rows |
| Registry.SaveNoMatch | app/crud/page.tsx:38-40 | a save whose id no row has leaves the list unchanged |
| Registry.SaveAfterEdit | app/crud/page.tsx:31-43 | with unique ids, editing row j, changing some fields and saving replaces row j with the edited row and nothing else |
| Registry.DeleteIsSubseq | app/crud/page.tsx:46 | delete keeps the remaining rows in order |
| Registry.DeleteCount | app/crud/page.tsx:46 | delete keeps every copy of each row with another id, and no row with the deleted id |
| Registry.DeleteIdempotent | app/crud/page.tsx:46 | deleting the same id twice is deleting it once |
| Registry.DeleteAbsent | app/crud/page.tsx:46 | deleting an id no row has changes nothing |
| Registry.SearchIsSubseq | app/crud/page.tsx:90-97 | search keeps the rows it keeps in their order |
| Registry.SearchEverything | app/crud/page.tsx:89-96 | an empty query with both filters on "All" keeps every row |
| Registry.SearchIgnoresCase | app/crud/page.tsx:89 | two queries that lower-case alike find the same rows: the comparison ignores ASCII case |
| Registry.SearchCaseExample | app/crud/page.tsx:89-95 | searching for `SMITH` and for `smith` finds the same rows |
| Registry.SearchUnknownStatus | app/crud/page.tsx:94 | a status filter that no row has finds nothing |
| Registry.CrudPage.constructor | app/crud/page.tsx:15-17 | the initial state of every `useState`; `filtered` is null |
| Registry.CrudPage.Rows | app/crud/page.tsx:130 | the rows the table shows: `filtered ?? documents` |
| Registry.CrudPage.ResetToInitial | app/crud/page.tsx:23-29 | the rows become the snapshot; editing ends and the form is empty; the search inputs and result are unchanged |
| Registry.CrudPage.Edit | app/crud/page.tsx:31-34 | the row's id is being edited and the form is a copy of the row; nothing else changes |
| Registry.CrudPage.ChangeField | app/crud/page.tsx:135-190 | one field of the form changes; nothing else does |
| Registry.CrudPage.Save | app/crud/page.tsx:36-43 | a form without an id (or with id 0) changes nothing. Otherwise the rows are merged by id, editing ends and the form is empty. The search state is unchanged |
| Registry.CrudPage.Delete | app/crud/page.tsx:45-47 | only the rows change: editing, form, inputs and search result keep their values |
| Registry.CrudPage.SetQuery | app/crud/page.tsx:63 | only the query changes |
| Registry.CrudPage.SetTypeFilter | app/crud/page.tsx:68 | only the type filter changes |
| Registry.CrudPage.SetStatusFilter | app/crud/page.tsx:78 | only the status filter changes |
| Registry.CrudPage.Search | app/crud/page.tsx:88-97 | the result is set (never null, even when empty) to the matching rows, and the table shows it |
| Registry.CrudPage.ResetFilters | app/crud/page.tsx:104-109 | the inputs are cleared, the result becomes null and the table shows every row |

## Left out

- **The XML parser and the XSLT engine.** `DOMParser` and `XSLTProcessor` (app/transform/page.tsx:27-28, 99-103) are represented by the `engine` parameter of `HandleTransform`, which yields a parsed tree or throws. The stylesheet's meaning is modelled over that tree; parsing XML text and the XSLT text itself are not modelled.
- **Malformed XML.** A browser returns a `parsererror` document rather than throwing, and what that document contains is engine-specific. The model does not say what the engine makes of malformed text: `engine` may return any parsed tree or throw. A throw gives the failure message. A returned tree, including a `parsererror` document, gives `Transform` of that tree, which is the unsupported-structure object unless its document element is one of the three supported names.
- **Network loads.** The `fetch` of a preset file (app/transform/page.tsx:18-19) and of the registry snapshot (app/crud/page.tsx:24-25) are not modelled. The loaded text and snapshot are parameters of `LoadPreset` and `ResetToInitial`.
- **Async ordering.** Overlapping preset loads and the mount-time `useEffect` call of `resetToInitial` are not modelled.
- **Preset selection.** The selected-file state is not modelled.
- **JSON validity.** The output is not claimed to be valid JSON. Extracted text is written unescaped, and the page never parses the output back.
- **Namespaces.** A node's name stands for a name in no namespace, which is all that the stylesheet's unprefixed name tests match (XPath 1.0 section 2.3). A document whose elements are in a namespace, such as `<BudgetReport xmlns="urn:x">`, takes the `xsl:otherwise` branch in a browser. The tree type cannot express such a document, so it is not modelled.
- **Nodes the stylesheet never reads.** Comments and processing instructions are not in the tree type.
- **Strings.ToLower**: lower-cases ASCII letters only. Full Unicode `toLowerCase` is not modelled.
- **Year input.** `parseInt` of the year input and its `NaN` result (app/crud/page.tsx:150) are not modelled. A year edit carries an integer.
- **The `!form.id` guard.** The form's id only ever comes from a row, never from an input, so the guard is modelled as "absent or 0".
- **Rendering.** JSX markup, CSS classes and the static pages (app/oais/page.tsx, app/page.tsx, app/layout.tsx) are not modelled.
- **Stale search result.** `filtered` is not recomputed by Save, Delete or ResetToInitial. The model keeps this as written, so after such a change a table that shows a search result still shows the old rows.

=== FILE: registry.dfy ===
/** The document registry of app/crud/page.tsx: the list of archive entries,
    the row being edited and its partial form, the search inputs and the last
    search result, with the handlers that change them. */
module Registry {
  import opened Seqs
  import opened Strings

  datatype Option<T> = None | Some(value: T)

  /** One row of the registry. */
  datatype DocumentEntry = DocumentEntry(
    id: int,
    documentType: string,
    year: int,
    status: string,
    sourceSystem: string,
    archivist: string)

  /** `Partial<DocumentEntry>`: a field that is `None` is absent from the object. */
  datatype Form = Form(
    id: Option<int>,
    documentType: Option<string>,
    year: Option<int>,
    status: Option<string>,
    sourceSystem: Option<string>,
    archivist: Option<string>)

  /** The object `{}`. */
  const EMPTY_FORM: Form := Form(None, None, None, None, None, None)

  /** A row used as a form: every field present. */
  function FormOf(d: DocumentEntry): Form
  {
    Form(Some(d.id), Some(d.documentType), Some(d.year), Some(d.status), Some(d.sourceSystem), Some(d.archivist))
  }

  function Pick<T>(o: Option<T>, otherwise: T): T
  {
    if o.Some? then o.value else otherwise
  }

  /** The spread `{ ...d, ...form }`: each field the form has replaces the row's. */
  function Overlay(d: DocumentEntry, f: Form): DocumentEntry
  {
    DocumentEntry(
      Pick(f.id, d.id),
      Pick(f.documentType, d.documentType),
      Pick(f.year, d.year),
      Pick(f.status, d.status),
      Pick(f.sourceSystem, d.sourceSystem),
      Pick(f.archivist, d.archivist))
  }

  /** An edit to one field of the form, as the inputs of the row being edited make it. */
  datatype FieldEdit =
    | SetDocumentType(documentType: string)
    | SetYear(year: int)
    | SetStatus(status: string)
    | SetSourceSystem(sourceSystem: string)
    | SetArchivist(archivist: string)

  /** `{ ...form, field: value }`. */
  function WithField(f: Form, e: FieldEdit): Form
  {
    match e
    case SetDocumentType(v) => f.(documentType := Some(v))
    case SetYear(v) => f.(year := Some(v))
    case SetStatus(v) => f.(status := Some(v))
    case SetSourceSystem(v) => f.(sourceSystem := Some(v))
    case SetArchivist(v) => f.(archivist := Some(v))
  }

  /** The same edit applied to a row. */
  function ApplyEdit(d: DocumentEntry, e: FieldEdit): DocumentEntry
  {
    match e
    case SetDocumentType(v) => d.(documentType := v)
    case SetYear(v) => d.(year := v)
    case SetStatus(v) => d.(status := v)
    case SetSourceSystem(v) => d.(sourceSystem := v)
    case SetArchivist(v) => d.(archivist := v)
  }

  /** The form after a series of field edits. */
  function WithFields(f: Form, edits: seq<FieldEdit>): Form
    decreases |edits|
  {
    if edits == [] then f else WithFields(WithField(f, edits[0]), edits[1..])
  }

  /** The row after the same series of edits. */
  function ApplyEdits(d: DocumentEntry, edits: seq<FieldEdit>): DocumentEntry
    decreases |edits|
  {
    if edits == [] then d else ApplyEdits(ApplyEdit(d, edits[0]), edits[1..])
  }

  /** The guard `!form.id` of the save handler: the id is absent or 0. */
  predicate Guarded(f: Form)
  {
    f.id.None? || f.id.value == 0
  }

  /** The row update of the save handler for one row. */
  function SaveRow(f: Form): DocumentEntry -> DocumentEntry
  {
    (d: DocumentEntry) => if f.id == Some(d.id) then Overlay(d, f) else d
  }

  /** The id-merge `map` of the save handler: every row whose id equals the
      form's is overlaid with the form, every other row stays as it is, and the
      list keeps its length and order. */
  function SaveRows(docs: seq<DocumentEntry>, f: Form): (r: seq<DocumentEntry>)
    ensures |r| == |docs|
    ensures forall i :: 0 <= i < |docs| && f.id == Some(docs[i].id) ==> r[i] == Overlay(docs[i], f)
    ensures forall i :: 0 <= i < |docs| && f.id != Some(docs[i].id) ==> r[i] == docs[i]
  {
    MapSeq(docs, SaveRow(f))
  }

  function IdOf(d: DocumentEntry): int
  {
    d.id
  }

  /** The ids of the rows, in order. */
  function Ids(docs: seq<DocumentEntry>): (r: seq<int>)
    ensures |r| == |docs| && forall i :: 0 <= i < |docs| ==> r[i] == docs[i].id
  {
    MapSeq(docs, IdOf)
  }

  /** The delete handler's `filter`: the rows whose id differs from `id`. */
  function DeleteRows(docs: seq<DocumentEntry>, id: int): (r: seq<DocumentEntry>)
    ensures forall d :: d in r <==> d in docs && d.id != id
  {
    Filter(docs, (d: DocumentEntry) => d.id != id)
  }

  /** The search handler's row test. */
  predicate Matches(d: DocumentEntry, query: string, typeFilter: string, statusFilter: string)
  {
    (typeFilter == "" || d.documentType == typeFilter)
    && (statusFilter == "" || d.status == statusFilter)
    && Includes(ToLower(d.archivist), ToLower(query))
  }

  /** The search handler's `filter`: the rows that pass all three tests. */
  function SearchRows(docs: seq<DocumentEntry>, query: string, typeFilter: string, statusFilter: string): (r: seq<DocumentEntry>)
    ensures forall d :: d in r <==> d in docs && Matches(d, query, typeFilter, statusFilter)
  {
    Filter(docs, (d: DocumentEntry) => Matches(d, query, typeFilter, statusFilter))
  }

  function TypeOf(d: DocumentEntry): string
  {
    d.documentType
  }

  function StatusOf(d: DocumentEntry): string
  {
    d.status
  }

  /** `[...new Set(documents.map((d) => d.documentType))]`. */
  function TypeOptions(docs: seq<DocumentEntry>): (r: seq<string>)
    ensures Distinct(r)
    ensures forall t :: t in r <==> exists i :: 0 <= i < |docs| && docs[i].documentType == t
  {
    var types := MapSeq(docs, TypeOf);
    assert forall t :: t in types <==> exists i :: 0 <= i < |docs| && docs[i].documentType == t by {
      forall t | t in types
        ensures exists i :: 0 <= i < |docs| && docs[i].documentType == t
      {
        var i :| 0 <= i < |types| && types[i] == t;
        assert docs[i].documentType == t;
      }
    }
    Dedup(types)
  }

  /** `[...new Set(documents.map((d) => d.status))]`. */
  function StatusOptions(docs: seq<DocumentEntry>): (r: seq<string>)
    ensures Distinct(r)
    ensures forall s :: s in r <==> exists i :: 0 <= i < |docs| && docs[i].status == s
  {
    var statuses := MapSeq(docs, StatusOf);
    assert forall s :: s in statuses <==> exists i :: 0 <= i < |docs| && docs[i].status == s by {
      forall s | s in statuses
        ensures exists i :: 0 <= i < |docs| && docs[i].status == s
      {
        var i :| 0 <= i < |statuses| && statuses[i] == s;
        assert docs[i].status == s;
      }
    }
    Dedup(statuses)
  }

  // ---------------------------------------------------------------- lemmas

  /** Spreading `{}` over a row leaves it as it is. */
  lemma OverlayEmpty(d: DocumentEntry)
    ensures Overlay(d, EMPTY_FORM) == d
  {
  }

  /** Spreading a whole row over another gives that row. */
  lemma OverlayWhole(d: DocumentEntry, e: DocumentEntry)
    ensures Overlay(d, FormOf(e)) == e
  {
  }

  /** A form taken from a row with a non-zero id passes the guard; one from a row
      with id 0 is refused, so such a row can never be saved. */
  lemma EditedFormGuard(d: DocumentEntry, edits: seq<FieldEdit>)
    ensures Guarded(WithFields(FormOf(d), edits)) <==> d.id == 0
  {
    WithFieldsKeepsId(FormOf(d), edits);
  }

  lemma {:induction false} WithFieldsKeepsId(f: Form, edits: seq<FieldEdit>)
    ensures WithFields(f, edits).id == f.id
    decreases |edits|
  {
    if edits != [] {
      WithFieldsKeepsId(WithField(f, edits[0]), edits[1..]);
    }
  }

  /** The form of a row after field edits describes that row with the same edits. */
  lemma {:induction false} WithFieldsIsFormOf(d: DocumentEntry, edits: seq<FieldEdit>)
    ensures WithFields(FormOf(d), edits) == FormOf(ApplyEdits(d, edits))
    decreases |edits|
  {
    if edits != [] {
      assert WithField(FormOf(d), edits[0]) == FormOf(ApplyEdit(d, edits[0]));
      WithFieldsIsFormOf(ApplyEdit(d, edits[0]), edits[1..]);
    }
  }

  /** A save never changes the ids of the rows or their order. */
  lemma SaveKeepsIds(docs: seq<DocumentEntry>, f: Form)
    ensures Ids(SaveRows(docs, f)) == Ids(docs)
  {
  }

  /** A save whose id no row has leaves the list as it is. */
  lemma SaveNoMatch(docs: seq<DocumentEntry>, f: Form)
    requires forall i :: 0 <= i < |docs| ==> f.id != Some(docs[i].id)
    ensures SaveRows(docs, f) == docs
  {
  }

  /** Edit row j, change some of its fields, save: when ids are unique, row j
      becomes the edited row and every other row is unchanged. */
  lemma SaveAfterEdit(docs: seq<DocumentEntry>, j: nat, edits: seq<FieldEdit>)
    requires j < |docs| && Distinct(Ids(docs))
    ensures SaveRows(docs, WithFields(FormOf(docs[j]), edits)) == docs[j := ApplyEdits(docs[j], edits)]
  {
    var f := WithFields(FormOf(docs[j]), edits);
    WithFieldsIsFormOf(docs[j], edits);
    ApplyEditsKeepsId(docs[j], edits);
    forall i | 0 <= i < |docs|
      ensures SaveRows(docs, f)[i] == docs[j := ApplyEdits(docs[j], edits)][i]
    {
      if i != j {
        assert f.id != Some(docs[i].id) by {
          if i < j {
            assert Ids(docs)[i] != Ids(docs)[j];
          } else {
            assert Ids(docs)[j] != Ids(docs)[i];
          }
        }
      }
    }
  }

  lemma {:induction false} ApplyEditsKeepsId(d: DocumentEntry, edits: seq<FieldEdit>)
    ensures ApplyEdits(d, edits).id == d.id
    decreases |edits|
  {
    if edits != [] {
      ApplyEditsKeepsId(ApplyEdit(d, edits[0]), edits[1..]);
    }
  }

  /** Delete keeps the other rows in their order. */
  lemma DeleteIsSubseq(docs: seq<DocumentEntry>, id: int)
    ensures SubseqOf(DeleteRows(docs, id), docs)
  {
    FilterIsSubseq(docs, (d: DocumentEntry) => d.id != id);
  }

  /** Delete keeps every copy of every row whose id differs, and nothing else. */
  lemma DeleteCount(docs: seq<DocumentEntry>, id: int, d: DocumentEntry)
    ensures multiset(DeleteRows(docs, id))[d] == if d.id != id then multiset(docs)[d] else 0
  {
    FilterCount(docs, (e: DocumentEntry) => e.id != id, d);
  }

  /** Deleting the same id twice is deleting it once. */
  lemma DeleteIdempotent(docs: seq<DocumentEntry>, id: int)
    ensures DeleteRows(DeleteRows(docs, id), id) == DeleteRows(docs, id)
  {
    FilterIdempotent(docs, (d: DocumentEntry) => d.id != id);
  }

  /** Deleting an id no row has changes nothing. */
  lemma DeleteAbsent(docs: seq<DocumentEntry>, id: int)
    requires forall i :: 0 <= i < |docs| ==> docs[i].id != id
    ensures DeleteRows(docs, id) == docs
  {
    FilterAll(docs, (d: DocumentEntry) => d.id != id);
  }

  /** Search keeps the rows it keeps in their order. */
  lemma SearchIsSubseq(docs: seq<DocumentEntry>, query: string, typeFilter: string, statusFilter: string)
    ensures SubseqOf(SearchRows(docs, query, typeFilter, statusFilter), docs)
  {
    FilterIsSubseq(docs, (d: DocumentEntry) => Matches(d, query, typeFilter, statusFilter));
  }

  /** An empty query with both filters on "All" keeps every row. */
  lemma SearchEverything(docs: seq<DocumentEntry>)
    ensures SearchRows(docs, "", "", "") == docs
  {
    forall d | d in docs
      ensures Matches(d, "", "", "")
    {
      assert ToLower("") == "";
      assert "" <= ToLower(d.archivist);
    }
    FilterAll(docs, (d: DocumentEntry) => Matches(d, "", "", ""));
  }

  /** The query is compared without regard to ASCII case: two queries that
      lower-case alike find the same rows. */
  lemma SearchIgnoresCase(docs: seq<DocumentEntry>, q1: string, q2: string, typeFilter: string, statusFilter: string)
    requires ToLower(q1) == ToLower(q2)
    ensures SearchRows(docs, q1, typeFilter, statusFilter) == SearchRows(docs, q2, typeFilter, statusFilter)
  {
    FilterSameCondition(docs,
      (d: DocumentEntry) => Matches(d, q1, typeFilter, statusFilter),
      (d: DocumentEntry) => Matches(d, q2, typeFilter, statusFilter));
  }

  /** Searching for "SMITH" and for "smith" finds the same rows. */
  lemma SearchCaseExample(docs: seq<DocumentEntry>, typeFilter: string, statusFilter: string)
    ensures SearchRows(docs, "SMITH", typeFilter, statusFilter) == SearchRows(docs, "smith", typeFilter, statusFilter)
  {
    LowerCaseExample();
    SearchIgnoresCase(docs, "SMITH", "smith", typeFilter, statusFilter);
  }

  /** A status filter that no row has finds nothing. */
  lemma SearchUnknownStatus(docs: seq<DocumentEntry>, query: string, typeFilter: string, statusFilter: string)
    requires statusFilter != "" && forall i :: 0 <= i < |docs| ==> docs[i].status != statusFilter
    ensures SearchRows(docs, query, typeFilter, statusFilter) == []
  {
    FilterNone(docs, (d: DocumentEntry) => Matches(d, query, typeFilter, statusFilter));
  }

  /** The option lists follow the rows: a value is listed before another exactly
      when its first row comes first. */
  lemma OptionsInFirstOccurrenceOrder(docs: seq<DocumentEntry>)
    ensures var types := MapSeq(docs, TypeOf);
      forall i, j :: 0 <= i < j < |TypeOptions(docs)| ==>
        IndexOf(types, TypeOptions(docs)[i]) < IndexOf(types, TypeOptions(docs)[j])
    ensures var statuses := MapSeq(docs, StatusOf);
      forall i, j :: 0 <= i < j < |StatusOptions(docs)| ==>
        IndexOf(statuses, StatusOptions(docs)[i]) < IndexOf(statuses, StatusOptions(docs)[j])
  {
    DedupFirstOccurrenceOrder(MapSeq(docs, TypeOf));
    DedupFirstOccurrenceOrder(MapSeq(docs, StatusOf));
  }

  // ---------------------------------------------------------------- page state

  class CrudPage {
    var documents: seq<DocumentEntry>
    var editingId: Option<int>
    var form: Form
    var query: string
    var typeFilter: string
    var statusFilter: string
    /** The last search result; `None` is `null`, before any search or after a reset. */
    var filtered: Option<seq<DocumentEntry>>

    /** The initial state of every `useState`. */
    constructor ()
      ensures documents == [] && editingId == None && form == EMPTY_FORM
      ensures query == "" && typeFilter == "" && statusFilter == "" && filtered == None
    {
      documents := [];
      editingId := None;
      form := EMPTY_FORM;
      query := "";
      typeFilter := "";
      statusFilter := "";
      filtered := None;
    }

    /** The rows the table shows: `filtered ?? documents`. */
    function Rows(): seq<DocumentEntry>
      reads this
    {
      if filtered.Some? then filtered.value else documents
    }

    /** `resetToInitial` with the fetched snapshot passed in. The search result is
        left as it was, so a table showing a search result keeps showing it. */
    method ResetToInitial(snapshot: seq<DocumentEntry>)
      modifies this
      ensures documents == snapshot && editingId == None && form == EMPTY_FORM
      ensures query == old(query) && typeFilter == old(typeFilter)
      ensures statusFilter == old(statusFilter) && filtered == old(filtered)
    {
      documents := snapshot;
      editingId := None;
      form := EMPTY_FORM;
    }

    /** `handleEdit`: the row becomes the one being edited and the form a copy of it. */
    method Edit(doc: DocumentEntry)
      modifies this
      ensures editingId == Some(doc.id) && form == FormOf(doc)
      ensures documents == old(documents) && query == old(query) && typeFilter == old(typeFilter)
      ensures statusFilter == old(statusFilter) && filtered == old(filtered)
    {
      editingId := Some(doc.id);
      form := FormOf(doc);
    }

    /** An input of the row being edited: one field of the form changes. */
    method ChangeField(e: FieldEdit)
      modifies this
      ensures form == WithField(old(form), e)
      ensures documents == old(documents) && editingId == old(editingId) && query == old(query)
      ensures typeFilter == old(typeFilter) && statusFilter == old(statusFilter) && filtered == old(filtered)
    {
      form := WithField(form, e);
    }

    /** `handleSave`: a form without an id (or with id 0) changes nothing;
        otherwise the form is merged into the rows with its id and editing ends. */
    method Save()
      modifies this
      ensures Guarded(old(form)) ==>
        documents == old(documents) && editingId == old(editingId) && form == old(form)
      ensures !Guarded(old(form)) ==>
        documents == SaveRows(old(documents), old(form)) && editingId == None && form == EMPTY_FORM
      ensures query == old(query) && typeFilter == old(typeFilter)
      ensures statusFilter == old(statusFilter) && filtered == old(filtered)
    {
      if Guarded(form) {
        return;
      }
      documents := SaveRows(documents, form);
      editingId := None;
      form := EMPTY_FORM;
    }

    /** `handleDelete`: only `documents` changes. */
    method Delete(id: int)
      modifies this
      ensures documents == DeleteRows(old(documents), id)
      ensures editingId == old(editingId) && form == old(form) && query == old(query)
      ensures typeFilter == old(typeFilter) && statusFilter == old(statusFilter) && filtered == old(filtered)
    {
      documents := DeleteRows(documents, id);
    }

    /** The search box. */
    method SetQuery(q: string)
      modifies this
      ensures query == q
      ensures documents == old(documents) && editingId == old(editingId) && form == old(form)
      ensures typeFilter == old(typeFilter) && statusFilter == old(statusFilter) && filtered == old(filtered)
    {
      query := q;
    }

    /** The type select; "" is "All Types". */
    method SetTypeFilter(t: string)
      modifies this
      ensures typeFilter == t
      ensures documents == old(documents) && editingId == old(editingId) && form == old(form)
      ensures query == old(query) && statusFilter == old(statusFilter) && filtered == old(filtered)
    {
      typeFilter := t;
    }

    /** The status select; "" is "All Status Values". */
    method SetStatusFilter(s: string)
      modifies this
      ensures statusFilter == s
      ensures documents == old(documents) && editingId == old(editingId) && form == old(form)
      ensures query == old(query) && typeFilter == old(typeFilter) && filtered == old(filtered)
    {
      statusFilter := s;
    }

    /** The Search button: the result is set, never null, and the table shows it. */
    method Search()
      modifies this
      ensures filtered == Some(SearchRows(documents, query, typeFilter, statusFilter))
      ensures Rows() == SearchRows(documents, query, typeFilter, statusFilter)
      ensures documents == old(documents) && editingId == old(editingId) && form == old(form)
      ensures query == old(query) && typeFilter == old(typeFilter) && statusFilter == old(statusFilter)
    {
      filtered := Some(SearchRows(documents, query, typeFilter, statusFilter));
    }

    /** The Reset Filters button: the inputs are cleared and the table shows every row. */
    method ResetFilters()
      modifies this
      ensures query == "" && typeFilter == "" && statusFilter == "" && filtered == None
      ensures Rows() == documents
      ensures documents == old(documents) && editingId == old(editingId) && form == old(form)
    {
      query := "";
      typeFilter := "";
      statusFilter := "";
      filtered := None;
    }
  }
}

=== FILE: seqs.dfy ===
/** Sequence operations shared by the stylesheet model and the registry page:
    `filter` and `map` as JavaScript arrays and XPath node-sets use them, and the
    first-occurrence de-duplication that `[...new Set(xs)]` performs. */
module Seqs {

  /** The elements of `s` that satisfy `p`, in their original order. */
  function Filter<T(!new)>(s: seq<T>, p: T -> bool): (r: seq<T>)
    ensures |r| <= |s|
    ensures forall x :: x in r <==> x in s && p(x)
  {
    if s == [] then []
    else
      assert s == [s[0]] + s[1..];
      if p(s[0]) then [s[0]] + Filter(s[1..], p) else Filter(s[1..], p)
  }

  /** `r` is `s` with some elements dropped and the rest kept in order. */
  predicate SubseqOf<T(==)>(r: seq<T>, s: seq<T>)
    decreases |s|
  {
    r == [] || (s != [] && ((r[0] == s[0] && SubseqOf(r[1..], s[1..])) || SubseqOf(r, s[1..])))
  }

  /** Filtering keeps the order of the elements it keeps. */
  lemma {:induction false} FilterIsSubseq<T(!new)>(s: seq<T>, p: T -> bool)
    ensures SubseqOf(Filter(s, p), s)
  {
    if s != [] {
      FilterIsSubseq(s[1..], p);
      if p(s[0]) {
        assert Filter(s, p)[1..] == Filter(s[1..], p);
      }
    }
  }

  /** Filtering keeps every occurrence of a satisfying element and no other element:
      with FilterIsSubseq this determines the result completely. */
  lemma {:induction false} FilterCount<T(!new)>(s: seq<T>, p: T -> bool, x: T)
    ensures multiset(Filter(s, p))[x] == if p(x) then multiset(s)[x] else 0
  {
    if s != [] {
      FilterCount(s[1..], p, x);
      assert s == [s[0]] + s[1..];
    }
  }

  /** A filter that every element passes changes nothing. */
  lemma {:induction false} FilterAll<T(!new)>(s: seq<T>, p: T -> bool)
    requires forall x :: x in s ==> p(x)
    ensures Filter(s, p) == s
  {
    if s != [] {
      FilterAll(s[1..], p);
    }
  }

  /** A filter that no element passes yields nothing. */
  lemma {:induction false} FilterNone<T(!new)>(s: seq<T>, p: T -> bool)
    requires forall x :: x in s ==> !p(x)
    ensures Filter(s, p) == []
  {
    if s != [] {
      FilterNone(s[1..], p);
    }
  }

  /** A filter that exactly one element passes yields that element. */
  lemma {:induction false} FilterSingle<T(!new)>(s: seq<T>, p: T -> bool, k: nat)
    requires k < |s| && p(s[k])
    requires forall j :: 0 <= j < |s| && j != k ==> !p(s[j])
    ensures Filter(s, p) == [s[k]]
  {
    if k == 0 {
      FilterNone(s[1..], p);
    } else {
      FilterSingle(s[1..], p, k - 1);
    }
  }

  /** Filtering twice by the same condition is filtering once. */
  lemma FilterIdempotent<T(!new)>(s: seq<T>, p: T -> bool)
    ensures Filter(Filter(s, p), p) == Filter(s, p)
  {
    FilterAll(Filter(s, p), p);
  }

  /** Two conditions that agree on every element of `s` filter it alike. */
  lemma {:induction false} FilterSameCondition<T(!new)>(s: seq<T>, p: T -> bool, q: T -> bool)
    requires forall x :: x in s ==> p(x) == q(x)
    ensures Filter(s, p) == Filter(s, q)
  {
    if s != [] {
      FilterSameCondition(s[1..], p, q);
    }
  }

  /** Filtering distributes over concatenation. */
  lemma {:induction false} FilterAppend<T(!new)>(s: seq<T>, t: seq<T>, p: T -> bool)
    ensures Filter(s + t, p) == Filter(s, p) + Filter(t, p)
  {
    if s == [] {
      assert s + t == t;
    } else {
      assert (s + t)[0] == s[0];
      assert (s + t)[1..] == s[1..] + t;
      FilterAppend(s[1..], t, p);
    }
  }

  /** `f` applied to each element of `s`, in order. */
  function MapSeq<T, U>(s: seq<T>, f: T -> U): (r: seq<U>)
    ensures |r| == |s|
    ensures forall i :: 0 <= i < |s| ==> r[i] == f(s[i])
  {
    if s == [] then [] else [f(s[0])] + MapSeq(s[1..], f)
  }

  /** No element occurs twice. */
  predicate Distinct<T(==)>(s: seq<T>)
  {
    forall i, j :: 0 <= i < j < |s| ==> s[i] != s[j]
  }

  /** The position of the first occurrence of `x` in `s`. */
  function IndexOf<T(==)>(s: seq<T>, x: T): (k: nat)
    requires x in s
    ensures k < |s| && s[k] == x && x !in s[..k]
  {
    if s[0] == x then 0 else 1 + IndexOf(s[1..], x)
  }

  /** The first occurrence of `x` is already in the prefix `s[..n]` when `x` is. */
  lemma {:induction false} IndexOfInPrefix<T>(s: seq<T>, n: nat, x: T)
    requires n <= |s| && x in s[..n]
    ensures IndexOf(s, x) == IndexOf(s[..n], x)
  {
    if s[0] != x {
      assert s[..n][1..] == s[1..][..n - 1];
      IndexOfInPrefix(s[1..], n - 1, x);
    }
  }

  /** Each distinct value of `s` once, in the order of its first occurrence: the
      array `[...new Set(s)]`, built by inserting the elements from left to right. */
  function Dedup<T(==,!new)>(s: seq<T>): (r: seq<T>)
    ensures forall x :: x in r <==> x in s
    ensures Distinct(r)
  {
    if s == [] then []
    else
      var init := Dedup(s[..|s| - 1]);
      var last := s[|s| - 1];
      assert s == s[..|s| - 1] + [last];
      if last in init then init else init + [last]
  }

  /** The values in `Dedup(s)` come in the order of their first occurrences in `s`. */
  lemma {:induction false} DedupFirstOccurrenceOrder<T(!new)>(s: seq<T>)
    ensures forall i, j :: 0 <= i < j < |Dedup(s)| ==> IndexOf(s, Dedup(s)[i]) < IndexOf(s, Dedup(s)[j])
  {
    if s != [] {
      var n := |s| - 1;
      var init := Dedup(s[..n]);
      var last := s[n];
      DedupFirstOccurrenceOrder(s[..n]);
      forall x | x in init
        ensures IndexOf(s, x) == IndexOf(s[..n], x) < n
      {
        IndexOfInPrefix(s, n, x);
      }
      if last !in init {
        assert last !in s[..n];
        assert IndexOf(s, last) == n;
      }
    }
  }
}

=== FILE: strings.dfy ===
/** Text helpers: the item/separator layout an `xsl:for-each` produces, and the
    lower-casing and substring test the registry search uses. */
module Strings {

  /** The text an `xsl:for-each` writes when iteration `i` (position() = i + 1)
      emits `items[i]` and then `sep` under `xsl:if test="position() != last()"`
      (XSLT 1.0 section 8, XPath 1.0 section 4.1). */
  function ForEach(items: seq<string>, sep: string): (r: string)
    ensures r == Join(items, sep)
  {
    ForEachIsJoin(items, sep);
    ForEachFrom(items, sep, 0)
  }

  /** The iterations from position `i + 1` up to last(). */
  function ForEachFrom(items: seq<string>, sep: string, i: nat): string
    decreases |items| - i
  {
    if i >= |items| then ""
    else items[i] + (if i + 1 != |items| then sep else "") + ForEachFrom(items, sep, i + 1)
  }

  /** Reference layout: the items with `sep` between each neighbouring pair. */
  function Join(items: seq<string>, sep: string): string
  {
    if |items| == 0 then ""
    else if |items| == 1 then items[0]
    else items[0] + sep + Join(items[1..], sep)
  }

  /** Total length of the items. */
  function TotalLength(items: seq<string>): nat
  {
    if items == [] then 0 else |items[0]| + TotalLength(items[1..])
  }

  lemma {:induction false} ForEachFromShift(items: seq<string>, sep: string, i: nat)
    requires 1 <= i && |items| >= 1
    ensures ForEachFrom(items, sep, i) == ForEachFrom(items[1..], sep, i - 1)
    decreases |items| - i
  {
    if i < |items| {
      assert items[1..][i - 1] == items[i];
      ForEachFromShift(items, sep, i + 1);
    }
  }

  /** The position-based separator test puts `sep` exactly between neighbours:
      the for-each layout is the plain join. */
  lemma {:induction false} ForEachIsJoin(items: seq<string>, sep: string)
    ensures ForEachFrom(items, sep, 0) == Join(items, sep)
  {
    if |items| >= 1 {
      ForEachFromShift(items, sep, 1);
      ForEachIsJoin(items[1..], sep);
      if |items| == 1 {
        assert ForEachFrom(items[1..], sep, 0) == "";
      }
    }
  }

  /** An empty node-set writes nothing, so the list renders as `[]`. */
  lemma ForEachEmpty(sep: string)
    ensures ForEach([], sep) == ""
  {
  }

  /** One more item adds exactly one separator, before it. */
  lemma {:induction false} JoinSnoc(items: seq<string>, x: string, sep: string)
    requires |items| >= 1
    ensures Join(items + [x], sep) == Join(items, sep) + sep + x
  {
    if |items| == 1 {
      assert (items + [x])[1..] == [x];
    } else {
      assert (items + [x])[1..] == items[1..] + [x];
      JoinSnoc(items[1..], x, sep);
    }
  }

  /** A list of n >= 1 items holds exactly n - 1 separators: its length is the
      items' lengths plus n - 1 copies of `sep`. */
  lemma {:induction false} ForEachLength(items: seq<string>, sep: string)
    requires |items| >= 1
    ensures |ForEach(items, sep)| == TotalLength(items) + (|items| - 1) * |sep|
  {
    JoinLength(items, sep);
  }

  lemma {:induction false} JoinLength(items: seq<string>, sep: string)
    requires |items| >= 1
    ensures |Join(items, sep)| == TotalLength(items) + (|items| - 1) * |sep|
  {
    if |items| > 1 {
      JoinLength(items[1..], sep);
    }
  }

  /** ASCII lower-casing of one character: 'A'..'Z' move 32 code points down
      the table to 'a'..'z'; every other character stays. */
  function LowerChar(c: char): (d: char)
    ensures 'A' <= c <= 'Z' ==> d as int == c as int + 32
    ensures !('A' <= c <= 'Z') ==> d == c
    ensures !('A' <= d <= 'Z')
  {
    if 'A' <= c <= 'Z' then (c as int - 'A' as int + 'a' as int) as char else c
  }

  /** `toLowerCase()` restricted to ASCII letters: the result has no upper-case
      ASCII letter, each upper-case letter of `s` becomes its lower-case letter
      at the same position, and every other character is kept. */
  function ToLower(s: string): (r: string)
    ensures |r| == |s|
    ensures forall i :: 0 <= i < |r| ==> !('A' <= r[i] <= 'Z')
    ensures forall i :: 0 <= i < |s| && 'A' <= s[i] <= 'Z' ==> r[i] as int == s[i] as int + 32
    ensures forall i :: 0 <= i < |s| && !('A' <= s[i] <= 'Z') ==> r[i] == s[i]
  {
    seq(|s|, i requires 0 <= i < |s| => LowerChar(s[i]))
  }

  /** Lower-casing text that is already lower-case changes nothing. */
  lemma LowerIdempotent(s: string)
    ensures ToLower(ToLower(s)) == ToLower(s)
  {
  }

  /** Two texts that differ only in the case of their ASCII letters lower-case alike. */
  lemma LowerCaseExample()
    ensures ToLower("SMITH") == ToLower("smith") == "smith"
  {
  }

  /** `s.includes(t)`: `t` occurs in `s` at some offset. */
  function Includes(s: string, t: string): (b: bool)
    ensures b <==> exists i :: 0 <= i <= |s| && t <= s[i..]
    decreases |s|
  {
    if t <= s then
      assert t <= s[0..];
      true
    else if s == [] then false
    else
      var b := Includes(s[1..], t);
      assert forall i :: 1 <= i <= |s| ==> s[i..] == s[1..][i - 1..];
      assert b ==> exists i :: 0 <= i <= |s| && t <= s[i..] by {
        if b {
          var i :| 0 <= i <= |s[1..]| && t <= s[1..][i..];
          assert s[i + 1..] == s[1..][i..];
        }
      }
      b
  }

  /** A prefix of the middle part stays a prefix once text is put around it. */
  lemma PrefixWithin(a: string, p: string, s: string, z: string)
    requires p <= s
    ensures a + p <= a + s + z
  {
    assert (a + s + z)[..|a + p|] == a + p;
  }
}

=== FILE: stylesheet.dfy ===
/** The XSLT 1.0 stylesheet embedded in app/transform/page.tsx, as a function from
    a parsed document to the text it outputs (`xsl:output method="text"`).

    The one template matches the root node and writes `{`, then the branch of an
    `xsl:choose` chosen by the name of the document element, then a newline and
    `}`. Inside a branch, scalar fields are `xsl:value-of` (the first matching
    node's string-value, or "") and lists are `xsl:for-each` (one item per
    matching node in document order, a separator after every item but the last).
    The literal pieces are the `xsl:text` contents after the JavaScript template
    literal has turned `\n` into a newline and `\"` into `"`. Extracted text is
    written as it is, without any escaping. */
module Stylesheet {
  import opened Seqs
  import opened Strings
  import opened Xml

  /** Which `xsl:when` of the `xsl:choose` is taken. */
  datatype Shape = BudgetReport | Meeting | Inspection | Unsupported

  /** The shape a document element of this name selects. */
  function ShapeNamed(root: Node): Shape
  {
    if root.Text? then Unsupported
    else if root.name == "BudgetReport" then BudgetReport
    else if root.name == "Meeting" then Meeting
    else if root.name == "Inspection" then Inspection
    else Unsupported
  }

  /** The `xsl:choose` (XSLT 1.0 section 9.2): the first `xsl:when` whose test, a
      child step from the root node, selects a node; otherwise `xsl:otherwise`.
      The branch depends on the document element's exact name and on nothing else. */
  function ShapeOf(doc: Document): (r: Shape)
    ensures r == ShapeNamed(doc.root)
  {
    SelectRoot(doc, "BudgetReport");
    SelectRoot(doc, "Meeting");
    SelectRoot(doc, "Inspection");
    if Select(doc, ["BudgetReport"]) != [] then BudgetReport
    else if Select(doc, ["Meeting"]) != [] then Meeting
    else if Select(doc, ["Inspection"]) != [] then Inspection
    else Unsupported
  }

  /** The value of the `"type"` field each supported branch writes first. */
  function TypeLabel(shape: Shape): string
  {
    match shape
    case BudgetReport => "Budget Report"
    case Meeting => "City Council Minutes"
    case Inspection => "School Inspection"
    case Unsupported => ""
  }

  /** The whole output of the `xsl:otherwise` branch. */
  const UNSUPPORTED_OUTPUT: string := "{" + UNSUPPORTED_BODY + "\n}"

  /** The text the template writes for `doc`. */
  function Transform(doc: Document): (r: string)
    ensures |r| >= 3 && r[0] == '{' && r[|r| - 2..] == "\n}"
    ensures r == UNSUPPORTED_OUTPUT <==> ShapeOf(doc) == Unsupported
    ensures ShapeOf(doc) != Unsupported ==> "{" + TypeField(ShapeOf(doc)) <= r
  {
    var body := Body(doc);
    var r := "{" + body + "\n}";
    if ShapeOf(doc) != Unsupported then
      var line := "{" + TypeField(ShapeOf(doc));
      PrefixWithin("{", TypeField(ShapeOf(doc)), body, "\n}");
      TypeLineNotError(ShapeOf(doc));
      assert r[5] == line[5];
      r
    else
      r
  }

  /** A supported branch and the unsupported one differ at their sixth character. */
  lemma TypeLineNotError(shape: Shape)
    ensures |"{" + TypeField(shape)| > 5 && ("{" + TypeField(shape))[5] == 't'
    ensures |UNSUPPORTED_OUTPUT| > 5 && UNSUPPORTED_OUTPUT[5] == 'e'
  {
    assert UNSUPPORTED_OUTPUT[5] == UNSUPPORTED_BODY[4];
  }

  /** The `"type"` field a supported branch writes first. */
  function TypeField(shape: Shape): string
  {
    "\n  \"type\": \"" + TypeLabel(shape) + "\","
  }

  /** The output of the `xsl:choose`. */
  function Body(doc: Document): (body: string)
    ensures ShapeOf(doc) == Unsupported ==> body == UNSUPPORTED_BODY
    ensures ShapeOf(doc) != Unsupported ==> TypeField(ShapeOf(doc)) <= body
  {
    match ShapeOf(doc)
    case BudgetReport => TypeField(BudgetReport) + BudgetFields(doc)
    case Meeting => TypeField(Meeting) + MeetingFields(doc)
    case Inspection => TypeField(Inspection) + InspectionFields(doc)
    case Unsupported => UNSUPPORTED_BODY
  }

  /** The `xsl:otherwise` branch. */
  const UNSUPPORTED_BODY: string := "\n  \"error\": \"Unsupported document structure.\""

  /** The `xsl:when test="BudgetReport"` branch after its type field. */
  function BudgetFields(doc: Document): string
  {
    "\n  \"year\": \"" + ValueOf(Select(doc, ["BudgetReport", "Year"])) + "\","
    + "\n  \"departments\": ["
    + ForEach(MapSeq(Select(doc, ["BudgetReport", "Department"]), DepartmentItem), ",")
    + "]"
  }

  /** One iteration of `xsl:for-each select="BudgetReport/Department"`. */
  function DepartmentItem(department: Node): (r: string)
    ensures |r| >= 2 && r[0] == '{' && r[|r| - 1] == '}'
  {
    "{\"name\": \"" + AttributeValue(department, "name")
    + "\", \"allocated\": \"" + ValueOf(Children(department, "Allocated"))
    + "\", \"spent\": \"" + ValueOf(Children(department, "Spent"))
    + "\"}"
  }

  /** The `xsl:when test="Meeting"` branch after its type field. */
  function MeetingFields(doc: Document): string
  {
    "\n  \"date\": \"" + ValueOf(Select(doc, ["Meeting", "Date"])) + "\","
    + "\n  \"location\": \"" + ValueOf(Select(doc, ["Meeting", "Location"])) + "\","
    + "\n  \"attendees\": ["
    + ForEach(MapSeq(Select(doc, ["Meeting", "Attendees", "Member"]), Quoted), ", ")
    + "],"
    + "\n  \"agenda\": ["
    + ForEach(MapSeq(Select(doc, ["Meeting", "Agenda", "Item"]), AgendaItem), ", ")
    + "]"
  }

  /** One iteration of a for-each whose body is `"<xsl:value-of select="."/>"`:
      the node's text between two quotes, unescaped. */
  function Quoted(n: Node): (r: string)
    ensures |r| == |StringValue(n)| + 2 && r[0] == '"' && r[|r| - 1] == '"'
    ensures r[1..|r| - 1] == StringValue(n)
  {
    "\"" + StringValue(n) + "\""
  }

  /** One iteration of `xsl:for-each select="Meeting/Agenda/Item"`. */
  function AgendaItem(item: Node): (r: string)
    ensures |r| >= 2 && r[0] == '{' && r[|r| - 1] == '}'
  {
    "{\"title\": \"" + ValueOf(Children(item, "Title"))
    + "\", \"decision\": \"" + ValueOf(Children(item, "Decision"))
    + "\"}"
  }

  /** The `xsl:when test="Inspection"` branch after its type field. */
  function InspectionFields(doc: Document): string
  {
    "\n  \"school\": \"" + ValueOf(Select(doc, ["Inspection", "SchoolName"])) + "\","
    + "\n  \"date\": \"" + ValueOf(Select(doc, ["Inspection", "Date"])) + "\","
    + "\n  \"findings\": ["
    + ForEach(MapSeq(Select(doc, ["Inspection", "Findings", "Finding"]), FindingItem), ", ")
    + "],"
    + "\n  \"recommendations\": ["
    + ForEach(MapSeq(Select(doc, ["Inspection", "Recommendations", "Recommendation"]), Quoted), ", ")
    + "]"
  }

  /** One iteration of `xsl:for-each select="Inspection/Findings/Finding"`. */
  function FindingItem(finding: Node): (r: string)
    ensures |r| >= 2 && r[0] == '{' && r[|r| - 1] == '}'
  {
    "{\"issue\": \"" + ValueOf(Children(finding, "Issue"))
    + "\", \"severity\": \"" + ValueOf(Children(finding, "Severity"))
    + "\"}"
  }

  /** A BudgetReport writes its type, the text of its first Year child, and one
      object per Department child in document order, separated by `,`. */
  lemma BudgetLayout(doc: Document)
    requires doc.root.Element? && doc.root.name == "BudgetReport"
    ensures Transform(doc)
         == "{" + (TypeField(BudgetReport)
            + ("\n  \"year\": \"" + ValueOf(Children(doc.root, "Year")) + "\","
            + "\n  \"departments\": ["
            + Join(MapSeq(Children(doc.root, "Department"), DepartmentItem), ",")
            + "]"))
            + "\n}"
  {
    SelectChildren(doc, "BudgetReport", "Year");
    SelectChildren(doc, "BudgetReport", "Department");
  }

  /** A Meeting writes its type, the texts of its first Date and Location
      children, one quoted string per Member of its Attendees children and one
      object per Item of its Agenda children, in document order. */
  lemma MeetingLayout(doc: Document)
    requires doc.root.Element? && doc.root.name == "Meeting"
    ensures Transform(doc)
         == "{" + (TypeField(Meeting)
            + ("\n  \"date\": \"" + ValueOf(Children(doc.root, "Date")) + "\","
            + "\n  \"location\": \"" + ValueOf(Children(doc.root, "Location")) + "\","
            + "\n  \"attendees\": ["
            + Join(MapSeq(Step(Children(doc.root, "Attendees"), "Member"), Quoted), ", ")
            + "],"
            + "\n  \"agenda\": ["
            + Join(MapSeq(Step(Children(doc.root, "Agenda"), "Item"), AgendaItem), ", ")
            + "]"))
            + "\n}"
  {
    SelectChildren(doc, "Meeting", "Date");
    SelectChildren(doc, "Meeting", "Location");
    SelectGrandchildren(doc, "Meeting", "Attendees", "Member");
    SelectGrandchildren(doc, "Meeting", "Agenda", "Item");
  }

  /** An Inspection writes its type, the texts of its first SchoolName and Date
      children, one object per Finding of its Findings children and one quoted
      string per Recommendation of its Recommendations children, in document order. */
  lemma InspectionLayout(doc: Document)
    requires doc.root.Element? && doc.root.name == "Inspection"
    ensures Transform(doc)
         == "{" + (TypeField(Inspection)
            + ("\n  \"school\": \"" + ValueOf(Children(doc.root, "SchoolName")) + "\","
            + "\n  \"date\": \"" + ValueOf(Children(doc.root, "Date")) + "\","
            + "\n  \"findings\": ["
            + Join(MapSeq(Step(Children(doc.root, "Findings"), "Finding"), FindingItem), ", ")
            + "],"
            + "\n  \"recommendations\": ["
            + Join(MapSeq(Step(Children(doc.root, "Recommendations"), "Recommendation"), Quoted), ", ")
            + "]"))
            + "\n}"
  {
    SelectChildren(doc, "Inspection", "SchoolName");
    SelectChildren(doc, "Inspection", "Date");
    SelectGrandchildren(doc, "Inspection", "Findings", "Finding");
    SelectGrandchildren(doc, "Inspection", "Recommendations", "Recommendation");
  }

  /** The document-element children that a for-each of the stylesheet walks into. */
  const LIST_STEPS: set<string> := {"Department", "Attendees", "Agenda", "Findings", "Recommendations"}

  /** Appending a child whose name no path of the template follows at that
      position changes no selection. */
  lemma SelectUnaffected(doc: Document, c: Node, path: seq<string>)
    requires doc.root.Element? && |path| >= 2 && !(c.Element? && c.name == path[1])
    ensures Select(Document(AppendChild(doc.root, c)), path) == Select(doc, path)
  {
    SelectAfterAppend(doc, c, path);
    FilterNone([c], IsElementNamed(path[1]));
    DescendEmpty(path[2..]);
  }

  /** Appending a second element of a scalar field leaves the field's value alone. */
  lemma ValueUnaffected(doc: Document, c: Node, path: seq<string>)
    requires doc.root.Element? && |path| == 2 && doc.root.name == path[0]
    requires c.Element? && c.name == path[1] ==> Children(doc.root, c.name) != []
    ensures ValueOf(Select(Document(AppendChild(doc.root, c)), path)) == ValueOf(Select(doc, path))
  {
    if c.Element? && c.name == path[1] {
      SelectAfterAppend(doc, c, path);
      SelectChildren(doc, path[0], path[1]);
      assert path == [path[0], path[1]];
    } else {
      SelectUnaffected(doc, c, path);
    }
  }

  /** `xsl:value-of` takes the first matching node only: a later element with
      the name of an element already present, appended to the document element,
      leaves the output as it was (unless it is a list element, which adds an item). */
  lemma LaterDuplicateIgnored(doc: Document, c: Node)
    requires doc.root.Element? && c.Element?
    requires c.name !in LIST_STEPS
    requires Children(doc.root, c.name) != []
    ensures Transform(Document(AppendChild(doc.root, c))) == Transform(doc)
  {
    var doc' := Document(AppendChild(doc.root, c));
    match ShapeOf(doc)
    case BudgetReport =>
      ValueUnaffected(doc, c, ["BudgetReport", "Year"]);
      SelectUnaffected(doc, c, ["BudgetReport", "Department"]);
      assert BudgetFields(doc') == BudgetFields(doc);
    case Meeting =>
      ValueUnaffected(doc, c, ["Meeting", "Date"]);
      ValueUnaffected(doc, c, ["Meeting", "Location"]);
      SelectUnaffected(doc, c, ["Meeting", "Attendees", "Member"]);
      SelectUnaffected(doc, c, ["Meeting", "Agenda", "Item"]);
      assert MeetingFields(doc') == MeetingFields(doc);
    case Inspection =>
      ValueUnaffected(doc, c, ["Inspection", "SchoolName"]);
      ValueUnaffected(doc, c, ["Inspection", "Date"]);
      SelectUnaffected(doc, c, ["Inspection", "Findings", "Finding"]);
      SelectUnaffected(doc, c, ["Inspection", "Recommendations", "Recommendation"]);
      assert InspectionFields(doc') == InspectionFields(doc);
    case Unsupported =>
  }
}


module StylesheetExamples {
  import opened Seqs
  import opened Strings
  import opened Xml
  import opened Stylesheet

  function Leaf(name: string, text: string): Node
  {
    Element(name, [], [Text(text)])
  }

  lemma LeafValue(name: string, text: string)
    ensures StringValue(Leaf(name, text)) == text
  {
    assert [Text(text)][1..] == [];
    assert StringValues([Text(text)]) == text + "";
  }

  /** `<Meeting><Date>date</Date><Location>location</Location><Attendees><Member>a</Member>
      <Member>b</Member></Attendees><Agenda><Item><Title>title</Title><Decision>decision</Decision>
      </Item></Agenda></Meeting>` */
  function MeetingDoc(date: string, location: string, a: string, b: string, title: string, decision: string): Document
  {
    Document(Element("Meeting", [], [
      Leaf("Date", date),
      Leaf("Location", location),
      Element("Attendees", [], [Leaf("Member", a), Leaf("Member", b)]),
      Element("Agenda", [], [ItemDoc(title, decision)])
    ]))
  }

  /** A scalar field of the example is the text of its one element. */
  lemma ExampleField(date: string, location: string, a: string, b: string, title: string, decision: string, k: nat)
    requires k < 2
    ensures var doc := MeetingDoc(date, location, a, b, title, decision);
      var name := if k == 0 then "Date" else "Location";
      ValueOf(Select(doc, ["Meeting", name])) == if k == 0 then date else location
  {
    var doc := MeetingDoc(date, location, a, b, title, decision);
    var name := if k == 0 then "Date" else "Location";
    SelectChildren(doc, "Meeting", name);
    FilterSingle(doc.root.children, IsElementNamed(name), k);
    LeafValue(name, if k == 0 then date else location);
  }

  /** Meeting/Attendees/Member selects the two members of the example, in order. */
  lemma ExampleMemberNodes(date: string, location: string, a: string, b: string, title: string, decision: string)
    ensures Select(MeetingDoc(date, location, a, b, title, decision), ["Meeting", "Attendees", "Member"])
         == [Leaf("Member", a), Leaf("Member", b)]
  {
    var doc := MeetingDoc(date, location, a, b, title, decision);
    var attendees := doc.root.children[2];
    SelectGrandchildren(doc, "Meeting", "Attendees", "Member");
    FilterSingle(doc.root.children, IsElementNamed("Attendees"), 2);
    assert Children(doc.root, "Attendees") == [attendees];
    assert Step([attendees], "Member") == Children(attendees, "Member") + Step([], "Member");
    FilterAll(attendees.children, IsElementNamed("Member"));
  }

  /** The attendees of the example: one quoted item per Member, in order. */
  lemma MeetingExampleAttendees(date: string, location: string, a: string, b: string, title: string, decision: string)
    ensures var doc := MeetingDoc(date, location, a, b, title, decision);
      ForEach(MapSeq(Select(doc, ["Meeting", "Attendees", "Member"]), Quoted), ", ")
      == ("\"" + a + "\"") + ", " + ("\"" + b + "\"")
  {
    var doc := MeetingDoc(date, location, a, b, title, decision);
    ExampleMemberNodes(date, location, a, b, title, decision);
    LeafValue("Member", a);
    LeafValue("Member", b);
    var qa, qb := "\"" + a + "\"", "\"" + b + "\"";
    assert MapSeq([Leaf("Member", a), Leaf("Member", b)], Quoted) == [qa, qb];
    ForEachPair(qa, qb, ", ");
    assert ForEach(MapSeq(Select(doc, ["Meeting", "Attendees", "Member"]), Quoted), ", ") == qa + ", " + qb;
  }

  function ItemDoc(title: string, decision: string): Node
  {
    Element("Item", [], [Leaf("Title", title), Leaf("Decision", decision)])
  }

  /** An agenda item renders its title and decision. */
  lemma ExampleItem(title: string, decision: string)
    ensures AgendaItem(ItemDoc(title, decision))
         == "{\"title\": \"" + title + "\", \"decision\": \"" + decision + "\"}"
  {
    var item := ItemDoc(title, decision);
    FilterSingle(item.children, IsElementNamed("Title"), 0);
    FilterSingle(item.children, IsElementNamed("Decision"), 1);
    LeafValue("Title", title);
    LeafValue("Decision", decision);
  }

  /** Meeting/Agenda/Item selects the one item of the example. */
  lemma ExampleAgendaNodes(date: string, location: string, a: string, b: string, title: string, decision: string)
    ensures Select(MeetingDoc(date, location, a, b, title, decision), ["Meeting", "Agenda", "Item"])
         == [ItemDoc(title, decision)]
  {
    var doc := MeetingDoc(date, location, a, b, title, decision);
    var agenda := doc.root.children[3];
    SelectGrandchildren(doc, "Meeting", "Agenda", "Item");
    FilterSingle(doc.root.children, IsElementNamed("Agenda"), 3);
    assert Children(doc.root, "Agenda") == [agenda];
    assert Step([agenda], "Item") == Children(agenda, "Item") + Step([], "Item");
    FilterAll(agenda.children, IsElementNamed("Item"));
  }

  /** The agenda of the example: one object per Item. */
  lemma MeetingExampleAgenda(date: string, location: string, a: string, b: string, title: string, decision: string)
    ensures var doc := MeetingDoc(date, location, a, b, title, decision);
      ForEach(MapSeq(Select(doc, ["Meeting", "Agenda", "Item"]), AgendaItem), ", ")
      == "{\"title\": \"" + title + "\", \"decision\": \"" + decision + "\"}"
  {
    var doc := MeetingDoc(date, location, a, b, title, decision);
    var text := "{\"title\": \"" + title + "\", \"decision\": \"" + decision + "\"}";
    ExampleAgendaNodes(date, location, a, b, title, decision);
    ExampleItem(title, decision);
    assert MapSeq([ItemDoc(title, decision)], AgendaItem) == [text];
    assert ForEach(MapSeq(Select(doc, ["Meeting", "Agenda", "Item"]), AgendaItem), ", ") == text;
  }

  lemma ForEachPair(x: string, y: string, sep: string)
    ensures ForEach([x, y], sep) == x + sep + y
  {
    assert [x, y][1..] == [y];
    assert Join([x, y], sep) == x + sep + Join([y], sep);
  }

  /** The Meeting document of the example renders its values in template order:
      for date 2024-01-01, location Hall and members A and B the attendees line
      is `"attendees": ["A", "B"],`. */
  lemma MeetingExample(date: string, location: string, a: string, b: string, title: string, decision: string)
    ensures Transform(MeetingDoc(date, location, a, b, title, decision))
         == "{" + (TypeField(Meeting)
            + ("\n  \"date\": \"" + date + "\","
            + "\n  \"location\": \"" + location + "\","
            + "\n  \"attendees\": [" + (("\"" + a + "\"") + ", " + ("\"" + b + "\"")) + "],"
            + "\n  \"agenda\": [" + ("{\"title\": \"" + title + "\", \"decision\": \"" + decision + "\"}") + "]"))
            + "\n}"
  {
    var doc := MeetingDoc(date, location, a, b, title, decision);
    ExampleField(date, location, a, b, title, decision, 0);
    ExampleField(date, location, a, b, title, decision, 1);
    MeetingExampleAttendees(date, location, a, b, title, decision);
    MeetingExampleAgenda(date, location, a, b, title, decision);
    var fields :=
      "\n  \"date\": \"" + date + "\","
      + "\n  \"location\": \"" + location + "\","
      + "\n  \"attendees\": [" + (("\"" + a + "\"") + ", " + ("\"" + b + "\"")) + "],"
      + "\n  \"agenda\": [" + ("{\"title\": \"" + title + "\", \"decision\": \"" + decision + "\"}") + "]";
    assert MeetingFields(doc) == fields;
  }
}

=== FILE: transform_page.dfy ===
/** The state of the transform page of app/transform/page.tsx: the XML text in
    the input box, the text shown as output and the list of source paths shown
    under it, and the two handlers that change them. */
module TransformPage {
  import opened Strings
  import opened Xml
  import opened Stylesheet

  /** What the browser makes of the input text: `DOMParser` followed by
      `XSLTProcessor` either yields the parsed document that the stylesheet is
      applied to, or throws. */
  datatype EngineOutcome = Parsed(doc: Document) | Threw

  /** The output shown when the transformation throws. */
  const FAILURE_MESSAGE: string := "\U{274C} XSLT Transformation failed"

  /** The fourteen source paths listed after every run that does not throw, one
      per line, in the order of the template's fields. */
  const SOURCE_PATHS: seq<string> := [
    "/BudgetReport/Year",
    "/BudgetReport/Department/@name",
    "/BudgetReport/Department/Allocated",
    "/BudgetReport/Department/Spent",
    "/Meeting/Date",
    "/Meeting/Location",
    "/Meeting/Attendees/Member",
    "/Meeting/Agenda/Item/Title",
    "/Meeting/Agenda/Item/Decision",
    "/Inspection/SchoolName",
    "/Inspection/Date",
    "/Inspection/Findings/Finding/Issue",
    "/Inspection/Findings/Finding/Severity",
    "/Inspection/Recommendations/Recommendation"
  ]

  /** The path-list text: the template literal opens and closes with a line break. */
  const XPATH_INFO: string := "\n" + Join(SOURCE_PATHS, "\n") + "\n"

  class Page {
    var xmlInput: string
    var output: string
    var xpathInfo: string

    /** The page as first rendered: every text empty. */
    constructor ()
      ensures xmlInput == "" && output == "" && xpathInfo == ""
    {
      xmlInput := "";
      output := "";
      xpathInfo := "";
    }

    /** `loadPreset`, with the fetched file's text passed in: the input becomes
        that text and the output is cleared; the path list is left as it was. */
    method LoadPreset(text: string)
      modifies this
      ensures xmlInput == text && output == "" && xpathInfo == old(xpathInfo)
    {
      xmlInput := text;
      output := "";
    }

    /** `handleTransform`: on a run that does not throw, the output is the
        stylesheet's text for the parsed document (the unsupported-structure
        object included) and the path list is the fixed one; when the engine
        throws, the output is the failure message and the path list is empty.
        The input is never changed, and the output is never empty. */
    method HandleTransform(engine: string -> EngineOutcome)
      modifies this
      ensures xmlInput == old(xmlInput)
      ensures engine(xmlInput).Parsed? ==>
                output == Transform(engine(xmlInput).doc) && xpathInfo == XPATH_INFO
      ensures engine(xmlInput).Threw? ==> output == FAILURE_MESSAGE && xpathInfo == ""
      ensures output != ""
    {
      match engine(xmlInput)
      case Parsed(doc) =>
        // `transformed.textContent || ''`: the text is never empty.
        output := Transform(doc);
        xpathInfo := XPATH_INFO;
      case Threw =>
        output := FAILURE_MESSAGE;
        xpathInfo := "";
    }
  }

  /** The path list has one line per source path: fourteen lines between the
      opening and closing line breaks, and it never depends on the document. */
  lemma {:induction false} PathListLines()
    ensures |SOURCE_PATHS| == 14
    ensures |XPATH_INFO| == 2 + TotalLength(SOURCE_PATHS) + 13
  {
    JoinLength(SOURCE_PATHS, "\n");
  }
}

=== FILE: xml.dfy ===
/** The part of the XPath 1.0 data model the stylesheet of app/transform/page.tsx
    reads: elements with attributes and ordered children, text nodes, the
    string-value of a node (XPath 1.0 section 5), child steps with a name test in
    document order, and the node-set to string conversion of `xsl:value-of`. */
module Xml {
  import opened Seqs

  datatype Attribute = Attribute(name: string, value: string)

  /** A node of the parsed input. Comments and processing instructions are not
      modelled: no expression of the stylesheet selects them or reads their text. */
  datatype Node =
    | Element(name: string, attributes: seq<Attribute>, children: seq<Node>)
    | Text(text: string)

  /** A parsed document: the root node, whose element child is `root`. */
  datatype Document = Document(root: Node)

  /** The string-value of a node: a text node's text, or the text of all the
      element's descendant text nodes in document order (XPath 1.0 section 5.2). */
  function StringValue(n: Node): string
  {
    match n
    case Text(t) => t
    case Element(_, _, children) => StringValues(children)
  }

  /** The string-values of `ns`, concatenated in order. */
  function StringValues(ns: seq<Node>): string
  {
    if ns == [] then "" else StringValue(ns[0]) + StringValues(ns[1..])
  }

  /** The name test of a child step: an element with exactly this (case-sensitive) name. */
  function IsElementNamed(name: string): Node -> bool
  {
    (n: Node) => n.Element? && n.name == name
  }

  /** The child step `name` from context node `n`: its element children with that
      name, in document order. A text node has no children. */
  function Children(n: Node, name: string): (r: seq<Node>)
    ensures forall c :: c in r <==> n.Element? && c in n.children && c.Element? && c.name == name
    ensures n.Element? ==> SubseqOf(r, n.children)
  {
    if n.Element? then
      FilterIsSubseq(n.children, IsElementNamed(name));
      Filter(n.children, IsElementNamed(name))
    else []
  }

  /** A child step keeps every matching child as often as it occurs: N children
      with that name give N nodes, and no other node is selected. */
  lemma ChildrenCount(n: Node, name: string, c: Node)
    ensures multiset(Children(n, name))[c]
         == if c.Element? && c.name == name then multiset(ChildNodes(n))[c] else 0
  {
    if n.Element? {
      FilterCount(n.children, IsElementNamed(name), c);
    }
  }

  /** The children of a node; a text node has none. */
  function ChildNodes(n: Node): seq<Node>
  {
    if n.Element? then n.children else []
  }

  /** The children of every node of a node-set, in document order. */
  function AllChildren(ns: seq<Node>): seq<Node>
  {
    if ns == [] then [] else ChildNodes(ns[0]) + AllChildren(ns[1..])
  }

  /** The child step `name` applied to every node of a node-set, the results
      joined in document order. */
  function Step(ns: seq<Node>, name: string): (r: seq<Node>)
    ensures forall c :: c in r ==> c.Element? && c.name == name
    ensures forall n, c :: n in ns && c in Children(n, name) ==> c in r
    ensures forall c :: c in r ==> exists n :: n in ns && c in Children(n, name)
  {
    if ns == [] then []
    else
      var r := Children(ns[0], name) + Step(ns[1..], name);
      assert forall n :: n in ns ==> n == ns[0] || n in ns[1..];
      r
  }

  /** A step selects every matching child of the node-set as often as it occurs
      there, and nothing else: N matching children give N nodes. */
  lemma {:induction false} StepCount(ns: seq<Node>, name: string, c: Node)
    ensures multiset(Step(ns, name))[c]
         == if c.Element? && c.name == name then multiset(AllChildren(ns))[c] else 0
  {
    if ns != [] {
      ChildrenCount(ns[0], name, c);
      StepCount(ns[1..], name, c);
    }
  }

  /** The location path path[0]/path[1]/... applied to the node-set `ns`. */
  function Descend(ns: seq<Node>, path: seq<string>): (r: seq<Node>)
    ensures path != [] ==> forall c :: c in r ==> c.Element? && c.name == path[|path| - 1]
    decreases |path|
  {
    if path == [] then ns else Descend(Step(ns, path[0]), path[1..])
  }

  /** The node-set selected by the relative location path path[0]/path[1]/...
      evaluated with the root node as context: its only element child is
      `doc.root`. */
  function Select(doc: Document, path: seq<string>): (r: seq<Node>)
    requires path != []
    ensures forall c :: c in r ==> c.Element? && c.name == path[|path| - 1]
  {
    Descend(Filter([doc.root], IsElementNamed(path[0])), path[1..])
  }

  /** `string()` of a node-set: the string-value of its first node in document
      order, or "" when it is empty (XPath 1.0 section 4.2); this is what
      `xsl:value-of` writes (XSLT 1.0 section 7.6.1). */
  function ValueOf(ns: seq<Node>): string
  {
    if ns == [] then "" else StringValue(ns[0])
  }

  /** `xsl:value-of select="@name"` on context node `n`: the value of its first
      attribute called `name`, or "" when it has none. */
  function AttributeValue(n: Node, name: string): (r: string)
    ensures r != "" ==> n.Element? && exists k :: 0 <= k < |n.attributes| && n.attributes[k].name == name && n.attributes[k].value == r
    ensures n.Element? && (forall a :: a in n.attributes ==> a.name != name) ==> r == ""
    ensures n.Text? ==> r == ""
    ensures n.Element? ==>
              forall k :: 0 <= k < |n.attributes| && n.attributes[k].name == name
                          && (forall j :: 0 <= j < k ==> n.attributes[j].name != name)
                          ==> r == n.attributes[k].value
  {
    if n.Text? then "" else FirstAttribute(n.attributes, name)
  }

  /** The value of the first attribute called `name`, or "" when there is none. */
  function FirstAttribute(attributes: seq<Attribute>, name: string): (r: string)
    ensures (forall a :: a in attributes ==> a.name != name) ==> r == ""
    ensures r != "" ==> exists k :: 0 <= k < |attributes| && attributes[k].name == name && attributes[k].value == r
    ensures forall k :: 0 <= k < |attributes| && attributes[k].name == name
                        && (forall j :: 0 <= j < k ==> attributes[j].name != name)
                        ==> r == attributes[k].value
  {
    if attributes == [] then ""
    else if attributes[0].name == name then attributes[0].value
    else
      var r := FirstAttribute(attributes[1..], name);
      assert forall k :: 1 <= k < |attributes| ==> attributes[1..][k - 1] == attributes[k];
      assert r != "" ==> exists k :: 0 <= k < |attributes| && attributes[k].name == name && attributes[k].value == r by {
        if r != "" {
          var k :| 0 <= k < |attributes[1..]| && attributes[1..][k].name == name && attributes[1..][k].value == r;
          assert attributes[k + 1] == attributes[1..][k];
        }
      }
      r
  }

  /** The string-value of a node-set's nodes concatenated is the concatenation
      of the parts' string-values. */
  lemma {:induction false} StringValuesAppend(ns: seq<Node>, ms: seq<Node>)
    ensures StringValues(ns + ms) == StringValues(ns) + StringValues(ms)
  {
    if ns == [] {
      assert ns + ms == ms;
    } else {
      assert (ns + ms)[0] == ns[0];
      assert (ns + ms)[1..] == ns[1..] + ms;
      StringValuesAppend(ns[1..], ms);
    }
  }

  /** `string()` reads the first node only: nodes after it never change the value. */
  lemma ValueOfFirst(ns: seq<Node>, ms: seq<Node>)
    requires ns != []
    ensures ValueOf(ns + ms) == ValueOf(ns)
  {
    assert (ns + ms)[0] == ns[0];
  }

  /** The root test `name` holds exactly when the document element is called
      `name`: it never looks at the document's content. */
  lemma SelectRoot(doc: Document, name: string)
    ensures Select(doc, [name]) != [] <==> doc.root.Element? && doc.root.name == name
  {
    assert [doc.root][1..] == [];
  }

  /** Node-sets keep document order: the step from a node-set that is the
      concatenation of two node-sets is the concatenation of the two steps. */
  lemma {:induction false} StepAppend(ns: seq<Node>, ms: seq<Node>, name: string)
    ensures Step(ns + ms, name) == Step(ns, name) + Step(ms, name)
  {
    if ns == [] {
      assert ns + ms == ms;
    } else {
      assert (ns + ms)[1..] == ns[1..] + ms;
      StepAppend(ns[1..], ms, name);
    }
  }

  /** `n` with `c` added as its last child. */
  function AppendChild(n: Node, c: Node): Node
    requires n.Element?
  {
    Element(n.name, n.attributes, n.children + [c])
  }

  /** A child appended last extends the child step that matches it and no other. */
  lemma ChildrenAppendChild(n: Node, c: Node, name: string)
    requires n.Element?
    ensures Children(AppendChild(n, c), name)
         == Children(n, name) + (if c.Element? && c.name == name then [c] else [])
  {
    FilterAppend(n.children, [c], IsElementNamed(name));
  }

  /** No node selects nothing. */
  lemma {:induction false} DescendEmpty(path: seq<string>)
    ensures Descend([], path) == []
    decreases |path|
  {
    if path != [] {
      DescendEmpty(path[1..]);
    }
  }

  /** A location path keeps document order across a concatenated node-set. */
  lemma {:induction false} DescendAppend(ns: seq<Node>, ms: seq<Node>, path: seq<string>)
    ensures Descend(ns + ms, path) == Descend(ns, path) + Descend(ms, path)
    decreases |path|
  {
    if path != [] {
      StepAppend(ns, ms, path[0]);
      DescendAppend(Step(ns, path[0]), Step(ms, path[0]), path[1..]);
    }
  }

  /** After appending `c` as the document element's last child, a path selects
      what it selected before, followed by what it selects below `c`. */
  lemma SelectAfterAppend(doc: Document, c: Node, path: seq<string>)
    requires doc.root.Element? && |path| >= 2
    ensures Select(Document(AppendChild(doc.root, c)), path)
         == Select(doc, path)
            + (if doc.root.name == path[0] then Descend(Filter([c], IsElementNamed(path[1])), path[2..]) else [])
  {
    var root' := AppendChild(doc.root, c);
    assert [doc.root][1..] == [] && [root'][1..] == [];
    if doc.root.name == path[0] {
      assert path[1..][1..] == path[2..];
      assert Filter([doc.root], IsElementNamed(path[0])) == [doc.root];
      assert Filter([root'], IsElementNamed(path[0])) == [root'];
      assert Step([doc.root], path[1]) == Children(doc.root, path[1]);
      assert Step([root'], path[1]) == Children(root', path[1]);
      assert Select(doc, path) == Descend(Children(doc.root, path[1]), path[2..]);
      assert Select(Document(root'), path) == Descend(Children(root', path[1]), path[2..]);
      ChildrenAppendChild(doc.root, c, path[1]);
      assert Filter([c], IsElementNamed(path[1])) == if c.Element? && c.name == path[1] then [c] else [];
      DescendAppend(Children(doc.root, path[1]), Filter([c], IsElementNamed(path[1])), path[2..]);
    } else {
      DescendEmpty(path[1..]);
    }
  }

  /** From a document element called `a`, the path a/b selects its `b` children. */
  lemma SelectChildren(doc: Document, a: string, b: string)
    requires doc.root.Element? && doc.root.name == a
    ensures Select(doc, [a, b]) == Children(doc.root, b)
  {
    calc {
      Select(doc, [a, b]);
      { assert Filter([doc.root], IsElementNamed(a)) == [doc.root]; assert [a, b][1..] == [b]; }
      Descend([doc.root], [b]);
      { assert [b][1..] == []; }
      Step([doc.root], b);
      { assert [doc.root][1..] == []; }
      Children(doc.root, b) + Step([], b);
      Children(doc.root, b);
    }
  }

  /** From a document element called `a`, the path a/b/c selects the `c` children
      of its `b` children. */
  lemma SelectGrandchildren(doc: Document, a: string, b: string, c: string)
    requires doc.root.Element? && doc.root.name == a
    ensures Select(doc, [a, b, c]) == Step(Children(doc.root, b), c)
  {
    calc {
      Select(doc, [a, b, c]);
      { assert Filter([doc.root], IsElementNamed(a)) == [doc.root]; assert [a, b, c][1..] == [b, c]; }
      Descend([doc.root], [b, c]);
      { assert [b, c][1..] == [c]; }
      Descend(Step([doc.root], b), [c]);
      { assert [doc.root][1..] == []; }
      Descend(Children(doc.root, b) + Step([], b), [c]);
      { assert Children(doc.root, b) + Step([], b) == Children(doc.root, b); }
      Descend(Children(doc.root, b), [c]);
      { assert [c][1..] == []; }
      Step(Children(doc.root, b), c);
    }
  }
}
